=== FILE: README.md ===
# Social backend route logic, modelled in Dafny

This project models the decision logic of a small Express/Mongoose social
network backend: its user routes (register, follow/unfollow toggle, profile
update, account deletion, followers/followings listings, the "following
posts" feed) and its post routes (create, get, update description, overwrite,
comment, delete, list all). The two Mongo collections become one immutable
`Store` (maps from opaque ids to `User` and `Post` records). Each handler is a
pure function (or, for the two collection scans, a method) from a store, the
authenticated caller and the request to an `Outcome` (the HTTP status class
the route sends: `Ok`, `BadRequest`, `Forbidden`, `NotFound`, `ServerError`) and a new store.

Files:

- `common.dfy`: `Option`, `Outcome`, ids, JavaScript truthiness, and Mongo's `$pull` (`RemoveAll`) with its list lemmas.
- `records.dfy`: the `User` and `Post` documents (modules `UserModel`, `PostModel`) and the `Store` (module `Database`).
- `follow_graph.dfy`: the follow toggle and the graph invariants (symmetry, no self edges, no duplicates).
- `feed.dfy`: the following-posts aggregation, with a reference specification `IsFeed`.
- `accounts.dfy`: registration, profile update, account deletion, the listings.
- `post_routes.dfy`: the post handlers.
- `scenarios.dfy`: properties spanning user and post routes.

Points where the code's behaviour is easy to misread:

- The routes answer 400 for self-follow, a registration conflict, updating or deleting another account, and `getpost` on a missing id. None of these has a status of its own.
- A comment on a missing post throws inside the route's `try`, so the route answers 400, not 404.
- The feed sort names no tie-break. Any order among equal `createdAt` is admitted.
- Edge lists are arrays, not sets. The follow branch appends to `following` without checking it. Duplicate-freedom is therefore an invariant (`NoDupEdges`) that the toggle preserves, not something the types guarantee.
- `save()` validates the whole post, including every embedded comment, while the overwrite's `$set` validates nothing. A comment without a username stored by the overwrite makes later description updates fail with 500 and later comments fail with 400.

## Model

| member | source | states |
|---|---|---|
| Common.RemoveAll | Routes/User.js:154-155 | `$pull` removes every occurrence of the id and keeps every other element with its multiplicity |
| Common.RemoveAllSingleton | Routes/User.js:154-155 | `$pull` on a one-element list keeps the element exactly when it is not the pulled id |
| Common.RemoveAllConcat | Routes/User.js:154-155 | `$pull` distributes over concatenation, so the survivors keep their original order |
| Common.RemoveAllUndoesAppend | Routes/User.js:150-155 | pulling an id that was just pushed onto a list that lacked it gives back the original list |
| FollowGraph.Follow | Routes/User.js:143-161 | self-follow is refused with the store unchanged; otherwise the branch is "follow" exactly when the actor is not in the target's followers; follow appends actor to target.followers and target to actor.following; unfollow is exactly `$pull` of the actor from target.followers and of the target from actor.following; the reply's status is 400 for self-follow and 200 otherwise; no other account, field or post changes |
| FollowGraph.FollowWithMissingActor | Routes/User.js:146-155 | a caller whose account is gone still gets the target's followers toggled (pushed if absent, pulled otherwise) before the route throws; nothing else changes |
| FollowGraph.FollowPreservesGraph | Routes/User.js:149-156 | a toggle keeps the graph symmetric (A in B.followers iff B in A.following), free of self edges and free of duplicates |
| FollowGraph.ToggleTwiceFromUnfollowed | Routes/User.js:149-156 | from "not following" on both sides, follow then unfollow restores the whole store exactly |
| FollowGraph.ToggleTwiceRestoresEdges | Routes/User.js:149-156 | from any well-formed graph, two toggles take opposite branches and restore every edge list as a multiset, all other fields exactly |
| FollowGraph.ToggleTwiceCanReorder | Routes/User.js:153-156 | a concrete well-formed store where unfollow-then-follow reorders the target's followers, so exact restoration holds only from "not following" |
| Feed.InsertNewestFirst | Routes/User.js:351-353 | one insertion step of the sort adds exactly the new entry and loses nothing |
| Feed.InsertKeepsOrder | Routes/User.js:351-353 | insertion keeps the sequence non-increasing in `createdAt` |
| Feed.InsertKeepsDistinct | Routes/User.js:351-353 | inserting a post with a new id keeps post ids distinct |
| Feed.FollowingPosts | Routes/User.js:340-371 | a missing viewer gives 400 and an empty feed; otherwise the result holds exactly the stored posts whose author is in the viewer's following list, each once with its stored record, newest first; an empty following list gives an empty feed; the viewer's own posts appear only if the viewer follows itself |
| Feed.FeedCountsMatches | Routes/User.js:347-353 | every feed meeting the reference specification has one entry per matching stored post, so feeds differ at most in the order of equal timestamps |
| Accounts.RegisterWithPicture | Routes/User.js:36-93 | registration is refused (400, store unchanged) exactly when an account already has the email or the username, or a required field would be empty; on success exactly one account is added, with the hashed password and empty edge lists, and nothing else changes |
| Accounts.RegisterAsWritten | Routes/User.js:67-73 | as written, a successful registration stores no profile picture whatever was supplied |
| Accounts.Register | Routes/User.js:67-73 | corrected registration stores the supplied picture |
| Accounts.RegisterPictureFinding | Routes/User.js:72 | a concrete registration whose picture the as-written route loses and the corrected one keeps |
| Accounts.RegisterPreservesUnique | Routes/User.js:51-56 | a successful registration keeps emails and usernames unique across accounts |
| Accounts.SecondRegistrationConflicts | Routes/User.js:51-56 | after a successful registration, a second one reusing its email or username is refused with no change |
| Accounts.UpdateProfileWith | Routes/User.js:170-208 | a non-owner gets 400 with no change; the owner gets 200; only truthy fields among password, bio, username (and picture where stored) are overwritten, the password as its hash; email, edges, posts and other accounts are untouched; a deleted owner changes nothing |
| Accounts.UpdateProfileAsWritten | Routes/User.js:183-185 | as written, the update never changes the stored profile picture |
| Accounts.UpdateProfile | Routes/User.js:183-185 | corrected update stores a truthy supplied picture |
| Accounts.UpdatePictureFinding | Routes/User.js:183-185 | a concrete update that the as-written route reduces to a no-op and the corrected one applies |
| Accounts.UpdateProfileRepeat | Routes/User.js:170-199 | repeating the same profile update, each call with its own salted hash, gives the same reply and changes nothing but possibly the stored password hash; without a truthy password it changes nothing at all |
| Accounts.UpdateProfileCanDuplicateUsername | Routes/User.js:193-199 | the update does not re-check uniqueness: a concrete unique store where the owner takes another account's username |
| Accounts.DeleteAccount | Routes/User.js:220-236 | a non-owner gets 400 with no change; the owner's account is removed and every other account and every post is untouched |
| Accounts.DeleteKeepsGraphOk | Routes/User.js:224-228 | deletion keeps symmetry, no self edges and no duplicates among the remaining accounts |
| Accounts.FollowWithMissingActorBreaksClosed | Routes/User.js:146-151 | when a deleted caller follows a target that does not list it, the half-applied toggle leaves the dead id in the target's followers, so edge lists no longer name only existing accounts |
| Accounts.FollowKeepsClosed | Routes/User.js:149-156 | a toggle only adds ids of existing accounts, so edge lists that name only existing accounts keep doing so |
| Accounts.ListIds | Routes/User.js:284-336 | 400 with an empty list when the account or any listed id is missing; otherwise one profile per stored id, same length and order, carrying id, username, bio and picture and no email, password or edge lists; the source wraps each entry as `{ others: … }`, which the flat `PublicProfile` leaves implicit |
| Accounts.ListFollowings | Routes/User.js:284-307 | a successful followings listing has one entry per id in `following` |
| Accounts.ListFollowers | Routes/User.js:312-336 | a successful followers listing has one entry per id in `followers` |
| Accounts.ListingsKeepStoredOrder | Routes/User.js:288-299 | the listed ids are exactly the stored id list, in stored order |
| Accounts.ListedFollowersFollow | Routes/User.js:316-327 | on a symmetric graph, every listed follower of B has B in its following list |
| Accounts.DeleteBreaksFollowingsListing | Routes/User.js:228 | deletion does not cascade: deleting a followed account leaves a dangling id and the follower's followings listing then fails |
| PostRoutes.CreatePost | Routes/Post.js:31-48 | the new post has the caller as author, the supplied description, no likes, no comments and the given time; existing posts and all accounts are unchanged |
| PostRoutes.GetPost | Routes/Post.js:54-67 | a missing id gives 400 and no post; otherwise 200 with the stored post |
| PostRoutes.CreateThenGet | Routes/Post.js:37-40 | a created post reads back exactly as created |
| PostRoutes.UpdatePost | Routes/Post.js:70-96 | missing post gives 404, non-author 403, an absent, empty or unchanged description 400; a stored comment without a username makes `save()` fail with 500; all of these change nothing; otherwise only that post's description changes |
| PostRoutes.UpdatePostTwiceRefused | Routes/Post.js:85-91 | resending a successful update is refused with 400 and changes nothing |
| PostRoutes.OverwritePost | Routes/Post.js:125-148 | a missing post gives 400 with no change; otherwise every supplied field is overwritten, every absent one kept, other posts untouched; the reply is 200 with the post as it was before the update exactly when that earlier version passes comment validation, and 400 otherwise, with the patch stored in both cases |
| PostRoutes.OverwriteIgnoresActor | Routes/Post.js:125-137 | the overwrite result does not depend on who asks |
| PostRoutes.OverwriteEmptyPatch | Routes/Post.js:135-137 | an empty patch leaves the store unchanged |
| PostRoutes.OverwriteThenDeleteByStranger | Routes/Post.js:129-139 | a non-author who cannot delete a post can make itself the author through the overwrite and then delete it; the overwrite's reply is 200 exactly when the post's comments were valid, and the takeover works either way |
| PostRoutes.OverwriteInvalidCommentBlocksSaves | Routes/Post.js:85-95 | after the overwrite stores a comment without a username, the author's description update answers 500 with no change, a new comment answers 400, and a further overwrite answers 400 |
| PostRoutes.CommentPost | Routes/Post.js:155-172 | a missing post or a comment the sub-schema rejects gives 400 with no change; otherwise exactly one comment with the caller's id, username and text is appended, prior comments, other fields and other posts unchanged |
| PostRoutes.CommentKeepsWellFormed | Modals/Post.js:16-29 | on a post with valid comments, commenting succeeds exactly when the caller's username is non-empty, and comments stay valid |
| PostRoutes.DeletePost | Routes/Post.js:176-195 | missing post gives 404, non-author 403, both with no change; the author removes exactly that post and nothing else |
| PostRoutes.CreateThenDelete | Routes/Post.js:178-190 | creating a post and deleting it as its author gives back the original store |
| PostRoutes.AllPosts | Routes/Post.js:100-118 | always 200; every stored post appears exactly once with its stored record, nothing else appears |
| Scenarios.CommentSnapshotSurvivesRename | Routes/Post.js:158-166 | a comment keeps the username it was written under after the commenter renames |
| Scenarios.FollowUnfollowScenario | Routes/User.js:149-156 | A follows B: A.following = [B], B.followers = [A]; toggling again empties both |
| Scenarios.StrangerCannotEditOrDelete | Routes/Post.js:80-82 | a post created by A has no likes or comments, and B, who is not A, gets 403 on update and on delete |

## Left out

- Login (`POST /login`) is not modelled. It is an email lookup plus a bcrypt comparison and a JWT signature, all foreign libraries.
- `GET /viewprofile/:id` and `GET /post/user/details/:id` are not modelled. They are read-only field projections of one account.
- Token signing and verification are not modelled. The authenticated caller's id, and for comments its username, are handler parameters.
- Password hashing is a function parameter `hash` supplied per call. A fresh salt per call is represented by passing a different function; the salt generation itself is not modelled.
- Rate limiting, helmet, mongo-sanitize, express-validator, CORS, the request log and the server start-up are not modelled. They are middleware and I/O.
- Concurrency is not modelled. Each handler is one atomic store transition, although the follow route's two document writes are not atomic in the source.
- `Date.now` and id generation are not modelled. The creation time and new ids are caller-supplied, and ids are opaque naturals compared only by equality.
- Store failures caught by the routes' `catch` blocks are not modelled, such as a lost connection or a rejected write. These answer 400 or 500 in the source. Schema validation failures are modelled.
- FollowGraph.Follow: requires both accounts to exist when they differ. The source route has no `try` around its lookups, so a missing account crashes it rather than answering. A missing target crashes before any write. A missing caller crashes after the target's `followers` was already written; that half-applied store is FollowGraph.FollowWithMissingActor, not Follow.
- Accounts.FollowKeepsClosed: covers only the toggle between two existing accounts. With a deleted caller the route's first write survives its crash, and Accounts.FollowWithMissingActorBreaksClosed shows that this breaks the property.
- Accounts.UpdateProfileRepeat: does not promise that a repeat with a truthy password leaves the stored hash unchanged. Each call draws a fresh salt, so the second hash generally differs.
- Accounts.RegisterWithPicture: request fields are always present strings. An absent field, and how a query on an absent field behaves, is not modelled.
- PostRoutes.OverwritePost: the patch covers only the schema's own fields. Unknown keys, `_id`, `null` values and cast failures are not modelled.
- Accounts.ListFollowings: its own contract states only the length. The per-entry content is stated on Accounts.ListIds, which it calls.
- Accounts.ListFollowers: its own contract states only the length. The per-entry content is stated on Accounts.ListIds, which it calls.
- Liking is not modelled. No route changes `likes` except the overwrite.

## Findings

| source | as written | input that shows it | evidently intended | confidence | as-written member | corrected member |
|---|---|---|---|---|---|---|
| Routes/User.js:72 | registration passes the picture under the lower-case key `profilepicture`; the schema (Modals/User.js:21-23) declares `profilePicture`; Mongoose's default strict mode drops unknown paths | register with a picture `"ann.png"`: the stored account has no picture | store the picture on the schema's `profilePicture` path | medium, not executed (depends on Mongoose strict mode being on, its default) | Accounts.RegisterAsWritten (shown by Accounts.RegisterPictureFinding) | Accounts.Register |
| Routes/User.js:183-185 | the profile update sets the lower-case key `profilepicture`, which the schema does not declare and strict mode drops | owner updates only the picture: the route answers 200 and the store is unchanged | overwrite `profilePicture` with a truthy supplied value | medium, not executed (depends on Mongoose strict mode being on, its default) | Accounts.UpdateProfileAsWritten (shown by Accounts.UpdatePictureFinding) | Accounts.UpdateProfile |

=== FILE: accounts.dfy ===
/** The account routes of `Routes/User.js`: registration, profile update,
    account deletion and the followers/followings listings. Password
    hashing is a parameter `hash`, an arbitrary function standing in for
    the salted one-way hash. */
module Accounts {
  import opened Common
  import opened UserModel
  import opened Database
  import FollowGraph

  // ---------------------------------------------------------------------
  // Registration
  // ---------------------------------------------------------------------

  /** The body of `POST /create/user`. */
  datatype Registration = Registration(
    username: string,
    email: string,
    password: string,
    bio: string,
    profilepicture: Option<string>)

  predicate EmailTaken(s: Store, email: string) {
    exists u :: u in s.users && s.users[u].email == email
  }

  predicate UsernameTaken(s: Store, username: string) {
    exists u :: u in s.users && s.users[u].username == username
  }

  /** No two accounts share an email or a username. */
  ghost predicate UniqueAccounts(s: Store) {
    forall a, b :: a in s.users && b in s.users && a != b ==>
      s.users[a].email != s.users[b].email && s.users[a].username != s.users[b].username
  }

  /** Registration with the stored profile picture given explicitly: the
      route first looks for an account with the same email or the same
      username (400 if one exists), then creates the document, whose
      `required` validators reject an empty username, email, hashed password
      or bio (the `catch` answers 400). */
  function RegisterWithPicture(s: Store, r: Registration, newId: UserId, hash: string -> string,
                           picture: Option<string>): (res: (Outcome, Store))
    requires newId !in s.users
    ensures res.0 == Ok || res.0 == BadRequest
    ensures res.0 == Ok <==>
      && !EmailTaken(s, r.email) && !UsernameTaken(s, r.username)
      && WellFormed(User(r.username, r.email, hash(r.password), r.bio, picture, [], []))
    ensures res.0 != Ok ==> res.1 == s
    ensures res.0 == Ok ==>
      && res.1.posts == s.posts
      && res.1.users.Keys == s.users.Keys + {newId}
      && (forall u :: u in s.users ==> res.1.users[u] == s.users[u])
      && var n := res.1.users[newId];
         && n.username == r.username && n.email == r.email && n.bio == r.bio
         && n.password == hash(r.password) && n.profilePicture == picture
         && n.followers == [] && n.following == []
  {
    if EmailTaken(s, r.email) || UsernameTaken(s, r.username) then (BadRequest, s)
    else
      var n := User(r.username, r.email, hash(r.password), r.bio, picture, [], []);
      if !WellFormed(n) then (BadRequest, s)
      else (Ok, s.(users := s.users[newId := n]))
  }

  /** Registration as the route is written: it passes the picture under the
      key `profilepicture`, which the schema (declaring `profilePicture`)
      does not know, so Mongoose's default strict mode drops it. */
  function RegisterAsWritten(s: Store, r: Registration, newId: UserId, hash: string -> string): (res: (Outcome, Store))
    requires newId !in s.users
    ensures res.0 == Ok ==> newId in res.1.users && res.1.users[newId].profilePicture == None
  {
    RegisterWithPicture(s, r, newId, hash, None)
  }

  /** Registration with the picture stored under the schema's own path. */
  function Register(s: Store, r: Registration, newId: UserId, hash: string -> string): (res: (Outcome, Store))
    requires newId !in s.users
    ensures res.0 == Ok ==> newId in res.1.users && res.1.users[newId].profilePicture == r.profilepicture
  {
    RegisterWithPicture(s, r, newId, hash, r.profilepicture)
  }

  /** The as-written route loses a supplied picture; the corrected one keeps it. */
  lemma RegisterPictureFinding(hash: string -> string)
    requires hash("secret") != ""
    ensures
      var r := Registration("ann", "ann@x", "secret", "hi", Some("ann.png"));
      var s := Store(map[], map[]);
      && RegisterAsWritten(s, r, 0, hash).0 == Ok
      && RegisterAsWritten(s, r, 0, hash).1.users[0].profilePicture != r.profilepicture
      && Register(s, r, 0, hash).1.users[0].profilePicture == r.profilepicture
  {
  }

  /** A successful registration keeps emails and usernames unique. */
  lemma RegisterPreservesUnique(s: Store, r: Registration, newId: UserId, hash: string -> string)
    requires newId !in s.users
    requires UniqueAccounts(s)
    ensures UniqueAccounts(Register(s, r, newId, hash).1)
  {
  }

  /** Registering a second account with an email or username already used
      by a registered one is rejected. */
  lemma SecondRegistrationConflicts(s: Store, r1: Registration, r2: Registration,
                                    id1: UserId, id2: UserId, hash: string -> string)
    requires id1 !in s.users && id2 !in s.users && id1 != id2
    requires Register(s, r1, id1, hash).0 == Ok
    requires r2.email == r1.email || r2.username == r1.username
    ensures Register(Register(s, r1, id1, hash).1, r2, id2, hash) == (BadRequest, Register(s, r1, id1, hash).1)
  {
  }

  // ---------------------------------------------------------------------
  // Profile update
  // ---------------------------------------------------------------------

  /** The body of `PUT /updateprofile/:id`; every field may be absent. */
  datatype ProfileEdit = ProfileEdit(
    password: Option<string>,
    profilepicture: Option<string>,
    bio: Option<string>,
    username: Option<string>)

  /** The `$set` document built from the truthy fields, applied to `u`.
      `pictureStored` says whether the picture reaches the schema path. */
  function ApplyEdit(u: User, e: ProfileEdit, hash: string -> string, pictureStored: bool): User {
    u.(password := if Truthy(e.password) then hash(e.password.value) else u.password,
       profilePicture := if pictureStored && Truthy(e.profilepicture) then e.profilepicture else u.profilePicture,
       bio := if Truthy(e.bio) then e.bio.value else u.bio,
       username := if Truthy(e.username) then e.username.value else u.username)
  }

  /** The route with the picture handling given explicitly. Only the owner
      may update (anyone else gets 400); an owner id whose account no
      longer exists updates nothing and still answers 200. */
  function UpdateProfileWith(s: Store, actor: UserId, target: UserId, e: ProfileEdit,
                                hash: string -> string, pictureStored: bool): (res: (Outcome, Store))
    ensures actor != target ==> res == (BadRequest, s)
    ensures actor == target ==> res.0 == Ok
    ensures res.1.posts == s.posts
    ensures res.1.users.Keys == s.users.Keys
    ensures forall u :: u in s.users && u != target ==> res.1.users[u] == s.users[u]
    ensures actor == target && target in s.users ==>
      var u, u' := s.users[target], res.1.users[target];
      && u'.email == u.email && u'.followers == u.followers && u'.following == u.following
      && (Truthy(e.password) ==> u'.password == hash(e.password.value))
      && (!Truthy(e.password) ==> u'.password == u.password)
      && (Truthy(e.bio) ==> u'.bio == e.bio.value)
      && (!Truthy(e.bio) ==> u'.bio == u.bio)
      && (Truthy(e.username) ==> u'.username == e.username.value)
      && (!Truthy(e.username) ==> u'.username == u.username)
      && (!Truthy(e.profilepicture) || !pictureStored ==> u'.profilePicture == u.profilePicture)
  {
    if actor != target then (BadRequest, s)
    else if target !in s.users then (Ok, s)
    else (Ok, s.(users := s.users[target := ApplyEdit(s.users[target], e, hash, pictureStored)]))
  }

  /** The profile update as written: the picture goes to `profilepicture`,
      a path the schema does not declare, and is dropped. */
  function UpdateProfileAsWritten(s: Store, actor: UserId, target: UserId, e: ProfileEdit,
                                  hash: string -> string): (res: (Outcome, Store))
    ensures actor == target && target in s.users ==>
      target in res.1.users && res.1.users[target].profilePicture == s.users[target].profilePicture
  {
    UpdateProfileWith(s, actor, target, e, hash, false)
  }

  /** The profile update with a truthy picture stored on `profilePicture`. */
  function UpdateProfile(s: Store, actor: UserId, target: UserId, e: ProfileEdit,
                         hash: string -> string): (res: (Outcome, Store))
    ensures actor == target && target in s.users && Truthy(e.profilepicture) ==>
      target in res.1.users && res.1.users[target].profilePicture == e.profilepicture
  {
    UpdateProfileWith(s, actor, target, e, hash, true)
  }

  /** The as-written update ignores a new picture; the corrected one stores it. */
  lemma UpdatePictureFinding(hash: string -> string)
    ensures
      var u := User("ann", "ann@x", "h", "hi", None, [], []);
      var s := Store(map[0 := u], map[]);
      var e := ProfileEdit(None, Some("ann.png"), None, None);
      && UpdateProfileAsWritten(s, 0, 0, e, hash).0 == Ok
      && UpdateProfileAsWritten(s, 0, 0, e, hash).1 == s
      && UpdateProfile(s, 0, 0, e, hash).1.users[0].profilePicture == Some("ann.png")
  {
  }

  /** Repeating the same profile update. Each call of the route draws a
      fresh salt, so the two calls hash with possibly different functions
      `hash1` and `hash2`: the repeat changes nothing but (possibly) the
      stored password hash, and without a truthy password it changes
      nothing at all. */
  lemma UpdateProfileRepeat(s: Store, actor: UserId, target: UserId, e: ProfileEdit,
                            hash1: string -> string, hash2: string -> string)
    ensures
      var once := UpdateProfile(s, actor, target, e, hash1);
      var twice := UpdateProfile(once.1, actor, target, e, hash2);
      && twice.0 == once.0
      && twice.1.posts == once.1.posts
      && twice.1.users.Keys == once.1.users.Keys
      && (forall u :: u in once.1.users ==>
            twice.1.users[u] == once.1.users[u].(password := twice.1.users[u].password))
      && (!Truthy(e.password) ==> twice == once)
  {
    if actor == target && target in s.users {
      var u := s.users[target];
      var u1 := ApplyEdit(u, e, hash1, true);
      assert ApplyEdit(u1, e, hash2, true) == u1.(password := ApplyEdit(u1, e, hash2, true).password);
      if !Truthy(e.password) {
        assert ApplyEdit(u1, e, hash2, true) == u1;
        var s1 := UpdateProfile(s, actor, target, e, hash1).1;
        assert s1.users[target := u1] == s1.users;
      }
    }
  }

  /** The update does not re-check uniqueness: an owner can take another
      account's username. */
  lemma UpdateProfileCanDuplicateUsername(hash: string -> string)
    ensures
      var s := Store(map[0 := User("ann", "ann@x", "h", "hi", None, [], []),
                         1 := User("bob", "bob@x", "h", "hi", None, [], [])], map[]);
      var e := ProfileEdit(None, None, None, Some("bob"));
      && UniqueAccounts(s)
      && UpdateProfile(s, 0, 0, e, hash).0 == Ok
      && !UniqueAccounts(UpdateProfile(s, 0, 0, e, hash).1)
  {
    var s := Store(map[0 := User("ann", "ann@x", "h", "hi", None, [], []),
                       1 := User("bob", "bob@x", "h", "hi", None, [], [])], map[]);
    var e := ProfileEdit(None, None, None, Some("bob"));
    var s' := UpdateProfile(s, 0, 0, e, hash).1;
    assert s'.users[0].username == "bob" && s'.users[1].username == "bob";
  }

  // ---------------------------------------------------------------------
  // Account deletion
  // ---------------------------------------------------------------------

  /** `DELETE /delete/:id`: only the owner may delete (400 otherwise); the
      account goes and nothing else is touched, not even edges pointing at
      it or the account's posts. Deleting an id with no account answers 200. */
  function DeleteAccount(s: Store, actor: UserId, target: UserId): (res: (Outcome, Store))
    ensures actor != target ==> res == (BadRequest, s)
    ensures actor == target ==>
      && res.0 == Ok
      && res.1.posts == s.posts
      && res.1.users.Keys == s.users.Keys - {target}
      && forall u :: u in res.1.users ==> res.1.users[u] == s.users[u]
  {
    if actor != target then (BadRequest, s) else (Ok, s.(users := s.users - {target}))
  }

  /** Every id in an edge list names an existing account. */
  ghost predicate Closed(s: Store) {
    forall a, k :: a in s.users && (k in s.users[a].followers || k in s.users[a].following) ==> k in s.users
  }

  /** Deletion keeps the graph invariants among the remaining accounts. */
  lemma DeleteKeepsGraphOk(s: Store, actor: UserId, target: UserId)
    requires FollowGraph.GraphOk(s)
    ensures FollowGraph.GraphOk(DeleteAccount(s, actor, target).1)
  {
  }

  /** A toggle only adds ids of existing accounts, so it keeps edges closed. */
  lemma FollowKeepsClosed(s: Store, actor: UserId, target: UserId)
    requires actor != target ==> actor in s.users && target in s.users
    requires Closed(s)
    ensures Closed(FollowGraph.Follow(s, actor, target).1)
  {
  }

  /** The half-applied toggle of a deleted caller pushes the caller's dead
      id onto the target's followers, so a store whose edges named only
      existing accounts no longer does. */
  lemma FollowWithMissingActorBreaksClosed(s: Store, actor: UserId, target: UserId)
    requires actor != target && actor !in s.users && target in s.users
    requires actor !in s.users[target].followers
    ensures !Closed(FollowGraph.FollowWithMissingActor(s, actor, target))
  {
  }

  // ---------------------------------------------------------------------
  // Followers / followings listings
  // ---------------------------------------------------------------------

  predicate AllExist(s: Store, ids: seq<UserId>) {
    forall k :: k in ids ==> k in s.users
  }

  /** Resolve each listed id and strip the private fields, keeping order.
      The route answers 400 when the account is missing or when any listed
      id resolves to nothing (reading `_doc` of `null` throws in its `try`). */
  function ListIds(s: Store, id: UserId, ids: seq<UserId>): (res: (Outcome, seq<PublicProfile>))
    ensures res.0 == Ok <==> id in s.users && AllExist(s, ids)
    ensures res.0 != Ok ==> res.0 == BadRequest && res.1 == []
    ensures res.0 == Ok ==>
      && |res.1| == |ids|
      && forall i :: 0 <= i < |ids| ==>
           var p, u := res.1[i], s.users[ids[i]];
           p.id == ids[i] && p.username == u.username && p.bio == u.bio && p.profilePicture == u.profilePicture
  {
    if id !in s.users || !AllExist(s, ids) then (BadRequest, [])
    else (Ok, seq(|ids|, i requires 0 <= i < |ids| => Project(ids[i], s.users[ids[i]])))
  }

  /** `GET /get/followings/:id`. */
  function ListFollowings(s: Store, id: UserId): (res: (Outcome, seq<PublicProfile>))
    ensures res.0 == Ok ==> id in s.users && |res.1| == |s.users[id].following|
  {
    ListIds(s, id, if id in s.users then s.users[id].following else [])
  }

  /** `GET /get/followers/:id`. */
  function ListFollowers(s: Store, id: UserId): (res: (Outcome, seq<PublicProfile>))
    ensures res.0 == Ok ==> id in s.users && |res.1| == |s.users[id].followers|
  {
    ListIds(s, id, if id in s.users then s.users[id].followers else [])
  }

  function ProfileIds(ps: seq<PublicProfile>): seq<UserId> {
    seq(|ps|, i requires 0 <= i < |ps| => ps[i].id)
  }

  /** The listings give back the stored id lists exactly, in stored order. */
  lemma ListingsKeepStoredOrder(s: Store, id: UserId)
    requires id in s.users
    ensures ListFollowings(s, id).0 == Ok ==> ProfileIds(ListFollowings(s, id).1) == s.users[id].following
    ensures ListFollowers(s, id).0 == Ok ==> ProfileIds(ListFollowers(s, id).1) == s.users[id].followers
  {
  }

  /** On a symmetric graph, everyone listed as a follower of `b` lists `b`
      among its followings. */
  lemma ListedFollowersFollow(s: Store, b: UserId)
    requires FollowGraph.Symmetric(s)
    requires ListFollowers(s, b).0 == Ok
    ensures forall p :: p in ListFollowers(s, b).1 ==> p.id in s.users && b in s.users[p.id].following
  {
  }

  /** Deleting a followed account leaves a dangling id behind, after which
      the follower's followings listing fails. */
  lemma DeleteBreaksFollowingsListing()
    ensures
      var s := Store(map[0 := User("ann", "ann@x", "h", "hi", None, [], [1]),
                         1 := User("bob", "bob@x", "h", "hi", None, [0], [])], map[]);
      && Closed(s)
      && ListFollowings(s, 0).0 == Ok
      && !Closed(DeleteAccount(s, 1, 1).1)
      && ListFollowings(DeleteAccount(s, 1, 1).1, 0).0 == BadRequest
  {
  }
}

=== FILE: common.dfy ===
/** Shared vocabulary of the backend model: optional values, the HTTP outcome
    of a handler, opaque record ids, JavaScript truthiness of a request field,
    and the two list operations Mongo applies to id arrays (`$push` appends,
    `$pull` removes every occurrence). */
module Common {

  /** An optional value; `None` stands for an absent JSON field or an unset
      document path. */
  datatype Option<+T> = None | Some(value: T)

  /** Opaque document ids. Only equality is ever used on them. */
  type UserId = nat
  type PostId = nat

  /** The status class a handler answers with, as the route code sends it. */
  datatype Outcome = Ok | BadRequest | Forbidden | NotFound | ServerError {
    function Status(): (code: nat)
      ensures Ok? <==> code == 200
      ensures ServerError? <==> code == 500
      ensures 400 <= code < 500 <==> !Ok? && !ServerError?
    {
      match this
      case Ok => 200
      case BadRequest => 400
      case Forbidden => 403
      case NotFound => 404
      case ServerError => 500
    }
  }

  /** A string request field is truthy in JavaScript when present and non-empty. */
  predicate Truthy(v: Option<string>) {
    v.Some? && v.value != ""
  }

  /** No id occurs twice. */
  ghost predicate NoDup(xs: seq<UserId>) {
    forall i, j :: 0 <= i < j < |xs| ==> xs[i] != xs[j]
  }

  /** Mongo's `$pull` of a scalar: every occurrence of `x` goes, everything
      else stays in its original order. */
  function RemoveAll(xs: seq<UserId>, x: UserId): (r: seq<UserId>)
    ensures multiset(r) == multiset(xs)[x := 0]
    ensures forall y :: y in r <==> y in xs && y != x
    ensures |r| <= |xs|
  {
    if |xs| == 0 then []
    else
      var rest := RemoveAll(xs[1..], x);
      assert xs == [xs[0]] + xs[1..];
      if xs[0] == x then rest else [xs[0]] + rest
  }

  /** `$pull` on a one-element list keeps the element unless it is the pulled id. */
  lemma RemoveAllSingleton(y: UserId, x: UserId)
    ensures RemoveAll([y], x) == if y == x then [] else [y]
  {
  }

  /** `$pull` works element by element and keeps the survivors in order:
      pulling from a concatenation is concatenating the pulled parts.
      Together with `RemoveAllSingleton` this determines `RemoveAll`. */
  lemma {:induction false} RemoveAllConcat(xs: seq<UserId>, ys: seq<UserId>, x: UserId)
    ensures RemoveAll(xs + ys, x) == RemoveAll(xs, x) + RemoveAll(ys, x)
  {
    if |xs| == 0 {
      assert xs + ys == ys;
    } else {
      assert (xs + ys)[0] == xs[0];
      assert (xs + ys)[1..] == xs[1..] + ys;
      RemoveAllConcat(xs[1..], ys, x);
    }
  }

  /** Removing an id that does not occur changes nothing. */
  lemma {:induction false} RemoveAllAbsent(xs: seq<UserId>, x: UserId)
    requires x !in xs
    ensures RemoveAll(xs, x) == xs
  {
    if |xs| > 0 {
      assert xs[0] != x;
      assert x !in xs[1..];
      RemoveAllAbsent(xs[1..], x);
    }
  }

  /** `$pull` undoes a `$push` of an id that was not there before. */
  lemma {:induction false} RemoveAllUndoesAppend(xs: seq<UserId>, x: UserId)
    requires x !in xs
    ensures RemoveAll(xs + [x], x) == xs
  {
    if |xs| == 0 {
      assert xs + [x] == [x];
      assert [x][1..] == [];
    } else {
      assert (xs + [x])[1..] == xs[1..] + [x];
      assert x !in xs[1..];
      RemoveAllUndoesAppend(xs[1..], x);
      assert xs == [xs[0]] + xs[1..];
    }
  }

  /** A duplicate-free list holds each of its ids exactly once. */
  lemma {:induction false} NoDupCountsOne(xs: seq<UserId>, x: UserId)
    requires NoDup(xs)
    requires x in xs
    ensures multiset(xs)[x] == 1
  {
    assert xs == [xs[0]] + xs[1..];
    assert NoDup(xs[1..]) by {
      forall i, j | 0 <= i < j < |xs[1..]|
        ensures xs[1..][i] != xs[1..][j]
      {
        assert xs[1..][i] == xs[i + 1] && xs[1..][j] == xs[j + 1];
      }
    }
    if xs[0] == x {
      assert x !in xs[1..] by {
        forall k | 0 <= k < |xs[1..]|
          ensures xs[1..][k] != x
        {
          assert xs[1..][k] == xs[k + 1];
        }
      }
      assert multiset(xs[1..])[x] == 0;
    } else {
      NoDupCountsOne(xs[1..], x);
    }
  }

  /** A list whose multiset has no entry above one is duplicate-free. */
  lemma MultisetOnesNoDup(xs: seq<UserId>)
    requires forall y :: multiset(xs)[y] <= 1
    ensures NoDup(xs)
  {
    forall i, j | 0 <= i < j < |xs|
      ensures xs[i] != xs[j]
    {
      var tail := xs[i + 1..];
      assert xs == xs[..i] + [xs[i]] + tail;
      assert multiset(xs)[xs[i]] >= 1 + multiset(tail)[xs[i]];
      assert xs[j] == tail[j - i - 1];
      assert xs[j] in multiset(tail);
    }
  }

  /** The multiset view of a duplicate-free list. */
  lemma NoDupMultisetOnes(xs: seq<UserId>)
    requires NoDup(xs)
    ensures forall y :: multiset(xs)[y] <= 1
  {
    forall y
      ensures multiset(xs)[y] <= 1
    {
      if y in xs {
        NoDupCountsOne(xs, y);
      }
    }
  }

  /** `$push` of a fresh id keeps a list duplicate-free, and `$pull` always does. */
  lemma NoDupAppendRemove(xs: seq<UserId>, x: UserId)
    requires NoDup(xs)
    ensures x !in xs ==> NoDup(xs + [x])
    ensures NoDup(RemoveAll(xs, x))
  {
    NoDupMultisetOnes(xs);
    if x !in xs {
      assert multiset(xs + [x]) == multiset(xs) + multiset{x};
      MultisetOnesNoDup(xs + [x]);
    }
    MultisetOnesNoDup(RemoveAll(xs, x));
  }
}

=== FILE: feed.dfy ===
/** `GET /api/user/followingposts`: the posts written by the accounts the
    viewer follows, newest first. The aggregation matches on
    `user $in following`, sorts on `createdAt` descending and projects every
    post field, so each entry carries the post id and the whole record.
    The sort names no tie-break, so any order among equal timestamps is
    admitted. */
module Feed {
  import opened Common
  import opened UserModel
  import opened PostModel
  import opened Database

  /** Sorted on `createdAt`, non-increasing. */
  ghost predicate NewestFirst(feed: seq<StoredPost>) {
    forall i, j :: 0 <= i < j < |feed| ==> feed[i].post.createdAt >= feed[j].post.createdAt
  }

  /** The ids of the stored posts whose author is in `following`. */
  ghost function Matching(s: Store, following: seq<UserId>): set<PostId> {
    set id | id in s.posts && s.posts[id].user in following
  }

  /** Reference specification of the aggregation: exactly the stored posts
      by followed authors, each once, newest first. */
  ghost predicate IsFeed(s: Store, following: seq<UserId>, feed: seq<StoredPost>) {
    && (forall x :: x in feed ==> x.id in s.posts && s.posts[x.id] == x.post && x.post.user in following)
    && (forall id :: id in s.posts && s.posts[id].user in following ==> StoredPost(id, s.posts[id]) in feed)
    && DistinctIds(feed)
    && NewestFirst(feed)
  }

  /** One insertion step of the `createdAt: -1` sort. */
  function InsertNewestFirst(e: StoredPost, feed: seq<StoredPost>): (r: seq<StoredPost>)
    ensures multiset(r) == multiset(feed) + multiset{e}
    ensures forall x :: x in r <==> x in feed || x == e
  {
    if |feed| == 0 then [e]
    else if feed[0].post.createdAt <= e.post.createdAt then [e] + feed
    else
      assert feed == [feed[0]] + feed[1..];
      [feed[0]] + InsertNewestFirst(e, feed[1..])
  }

  /** Inserting keeps the feed newest first. */
  lemma {:induction false} InsertKeepsOrder(e: StoredPost, feed: seq<StoredPost>)
    requires NewestFirst(feed)
    ensures NewestFirst(InsertNewestFirst(e, feed))
  {
    if |feed| > 0 && feed[0].post.createdAt > e.post.createdAt {
      var rest := feed[1..];
      assert NewestFirst(rest) by {
        forall i, j | 0 <= i < j < |rest|
          ensures rest[i].post.createdAt >= rest[j].post.createdAt
        {
          assert rest[i] == feed[i + 1] && rest[j] == feed[j + 1];
        }
      }
      InsertKeepsOrder(e, rest);
      var r' := InsertNewestFirst(e, rest);
      var r := InsertNewestFirst(e, feed);
      assert r == [feed[0]] + r';
      forall i, j | 0 <= i < j < |r|
        ensures r[i].post.createdAt >= r[j].post.createdAt
      {
        if i == 0 {
          assert r[j] == r'[j - 1];
          assert r[j] in r';
          if r[j] != e {
            var k :| 0 <= k < |rest| && rest[k] == r[j];
            assert rest[k] == feed[k + 1];
          }
        } else {
          assert r[i] == r'[i - 1] && r[j] == r'[j - 1];
        }
      }
    }
  }

  /** Inserting an entry with a new id keeps the ids distinct. */
  lemma {:induction false} InsertKeepsDistinct(e: StoredPost, feed: seq<StoredPost>)
    requires DistinctIds(feed)
    requires forall x :: x in feed ==> x.id != e.id
    ensures DistinctIds(InsertNewestFirst(e, feed))
  {
    var r := InsertNewestFirst(e, feed);
    if |feed| > 0 && feed[0].post.createdAt > e.post.createdAt {
      var rest := feed[1..];
      assert DistinctIds(rest) by {
        forall i, j | 0 <= i < j < |rest|
          ensures rest[i].id != rest[j].id
        {
          assert rest[i] == feed[i + 1] && rest[j] == feed[j + 1];
        }
      }
      assert forall x :: x in rest ==> x in feed;
      InsertKeepsDistinct(e, rest);
      var r' := InsertNewestFirst(e, rest);
      assert r == [feed[0]] + r';
      forall i, j | 0 <= i < j < |r|
        ensures r[i].id != r[j].id
      {
        if i == 0 {
          assert r[j] == r'[j - 1];
          assert r[j] in r';
          if r[j] != e {
            var k :| 0 <= k < |rest| && rest[k] == r[j];
            assert rest[k] == feed[k + 1];
          } else {
            assert feed[0] in feed;
          }
        } else {
          assert r[i] == r'[i - 1] && r[j] == r'[j - 1];
        }
      }
    } else if |feed| > 0 {
      assert r == [e] + feed;
      forall i, j | 0 <= i < j < |r|
        ensures r[i].id != r[j].id
      {
        if i == 0 {
          assert r[j] == feed[j - 1];
          assert r[j] in feed;
        } else {
          assert r[i] == feed[i - 1] && r[j] == feed[j - 1];
        }
      }
    }
  }

  /** The route handler. A viewer id with no account makes `user.following`
      throw inside the handler's `try`, which answers 400. */
  method FollowingPosts(s: Store, viewer: UserId) returns (out: Outcome, feed: seq<StoredPost>)
    ensures out == Ok <==> viewer in s.users
    ensures out != Ok ==> out == BadRequest && feed == []
    ensures out == Ok ==> IsFeed(s, s.users[viewer].following, feed)
    ensures out == Ok && s.users[viewer].following == [] ==> feed == []
    ensures out == Ok && viewer !in s.users[viewer].following ==>
              forall x :: x in feed ==> x.post.user != viewer
  {
    if viewer !in s.users {
      return BadRequest, [];
    }
    var following := s.users[viewer].following;
    feed := [];
    var todo := s.posts.Keys;
    while todo != {}
      invariant todo <= s.posts.Keys
      invariant NewestFirst(feed) && DistinctIds(feed)
      invariant forall x :: x in feed ==>
                  x.id in s.posts && s.posts[x.id] == x.post && x.post.user in following && x.id !in todo
      invariant forall id :: id in s.posts && id !in todo && s.posts[id].user in following ==>
                  StoredPost(id, s.posts[id]) in feed
      decreases todo
    {
      var id :| id in todo;
      todo := todo - {id};
      var p := s.posts[id];
      if p.user in following {
        InsertKeepsOrder(StoredPost(id, p), feed);
        InsertKeepsDistinct(StoredPost(id, p), feed);
        feed := InsertNewestFirst(StoredPost(id, p), feed);
      }
    }
    assert |feed| > 0 ==> feed[0] in feed;
    out := Ok;
  }

  /** Every admissible feed has one entry per matching stored post, so all
      feeds for the same store and following list have the same length and
      differ at most in the order of posts with equal timestamps. */
  lemma FeedCountsMatches(s: Store, following: seq<UserId>, feed: seq<StoredPost>)
    requires IsFeed(s, following, feed)
    ensures |feed| == |Matching(s, following)|
    ensures Ids(feed) == Matching(s, following)
  {
    forall id | id in Matching(s, following)
      ensures id in Ids(feed)
    {
      var i :| 0 <= i < |feed| && feed[i] == StoredPost(id, s.posts[id]);
    }
    forall id | id in Ids(feed)
      ensures id in Matching(s, following)
    {
      var i :| 0 <= i < |feed| && feed[i].id == id;
      assert feed[i] in feed;
    }
    assert Ids(feed) == Matching(s, following);
    DistinctIdsCard(feed);
  }
}

=== FILE: follow_graph.dfy ===
/** The follow toggle of `PUT /api/user/follow/:id` and the invariants of
    the follower/following graph it maintains. */
module FollowGraph {
  import opened Common
  import opened UserModel
  import opened Database

  /** Which branch the toggle took; the self-follow case answers 400. */
  datatype FollowReply = Followed | Unfollowed | CannotFollowSelf {
    function ToOutcome(): (o: Outcome)
      ensures o == Ok <==> !CannotFollowSelf?
    {
      if CannotFollowSelf? then BadRequest else Ok
    }
  }

  /** The follow route, run as one atomic step. The route has no error
      handling around its two lookups, so it only answers for an actor and
      a target that both exist (when they differ). The branch depends only
      on whether the actor already occurs in the target's `followers`. */
  function Follow(s: Store, actor: UserId, target: UserId): (res: (FollowReply, Store))
    requires actor != target ==> actor in s.users && target in s.users
    ensures res.0 == CannotFollowSelf <==> actor == target
    ensures res.0.ToOutcome().Status() == (if actor == target then 400 else 200)
    ensures actor == target ==> res.1 == s
    ensures res.1.posts == s.posts
    ensures res.1.users.Keys == s.users.Keys
    ensures forall u :: u in s.users && u != actor && u != target ==> res.1.users[u] == s.users[u]
    ensures actor != target ==>
      var t, a := s.users[target], s.users[actor];
      var t', a' := res.1.users[target], res.1.users[actor];
      && (res.0 == Followed <==> actor !in t.followers)
      && t' == t.(followers := t'.followers)
      && a' == a.(following := a'.following)
      && (res.0 == Followed ==>
            t'.followers == t.followers + [actor] && a'.following == a.following + [target])
      && (res.0 == Unfollowed ==>
            && t'.followers == RemoveAll(t.followers, actor)
            && a'.following == RemoveAll(a.following, target)
            && multiset(t'.followers) == multiset(t.followers)[actor := 0]
            && multiset(a'.following) == multiset(a.following)[target := 0])
  {
    if actor == target then (CannotFollowSelf, s)
    else
      var t, a := s.users[target], s.users[actor];
      if actor !in t.followers then
        var users := s.users[target := t.(followers := t.followers + [actor])]
                            [actor := a.(following := a.following + [target])];
        (Followed, s.(users := users))
      else
        var users := s.users[target := t.(followers := RemoveAll(t.followers, actor))]
                            [actor := a.(following := RemoveAll(a.following, target))];
        (Unfollowed, s.(users := users))
  }

  /** The follow route when the caller's account no longer exists (its
      token outlives a deletion) but the target's does. The route reads
      `target.followers`, writes the target's document, and only then
      throws on the caller's missing document: no reply is sent, and the
      target keeps the first of the two writes. This is the store after
      that half-applied toggle. */
  function FollowWithMissingActor(s: Store, actor: UserId, target: UserId): (s': Store)
    requires actor != target && actor !in s.users && target in s.users
    ensures s'.posts == s.posts
    ensures s'.users.Keys == s.users.Keys
    ensures forall u :: u in s.users && u != target ==> s'.users[u] == s.users[u]
    ensures var t, t' := s.users[target], s'.users[target];
      && t' == t.(followers := t'.followers)
      && (actor !in t.followers ==> t'.followers == t.followers + [actor])
      && (actor in t.followers ==> t'.followers == RemoveAll(t.followers, actor))
  {
    var t := s.users[target];
    if actor !in t.followers then
      s.(users := s.users[target := t.(followers := t.followers + [actor])])
    else
      s.(users := s.users[target := t.(followers := RemoveAll(t.followers, actor))])
  }

  /** `a` follows `b` as recorded on `b`'s side. */
  ghost predicate FollowerEdge(s: Store, a: UserId, b: UserId)
    requires b in s.users
  {
    a in s.users[b].followers
  }

  /** `a` follows `b` as recorded on `a`'s side. */
  ghost predicate FollowingEdge(s: Store, a: UserId, b: UserId)
    requires a in s.users
  {
    b in s.users[a].following
  }

  /** Between existing accounts, both sides of every edge agree. */
  ghost predicate Symmetric(s: Store) {
    forall a, b :: a in s.users && b in s.users ==> (FollowerEdge(s, a, b) <==> FollowingEdge(s, a, b))
  }

  /** No account follows itself. */
  ghost predicate NoSelfEdges(s: Store) {
    forall a :: a in s.users ==> !FollowerEdge(s, a, a) && !FollowingEdge(s, a, a)
  }

  /** No id is listed twice in any edge list. */
  ghost predicate NoDupEdges(s: Store) {
    forall a :: a in s.users ==> NoDup(s.users[a].followers) && NoDup(s.users[a].following)
  }

  ghost predicate GraphOk(s: Store) {
    Symmetric(s) && NoSelfEdges(s) && NoDupEdges(s)
  }

  /** A toggle keeps a well-formed follow graph well-formed. */
  lemma FollowPreservesGraph(s: Store, actor: UserId, target: UserId)
    requires actor != target ==> actor in s.users && target in s.users
    requires GraphOk(s)
    ensures GraphOk(Follow(s, actor, target).1)
  {
    if actor != target {
      var s' := Follow(s, actor, target).1;
      var t, a := s.users[target], s.users[actor];
      assert FollowerEdge(s, actor, target) <==> FollowingEdge(s, actor, target);
      NoDupAppendRemove(t.followers, actor);
      NoDupAppendRemove(a.following, target);
      forall x, y | x in s'.users && y in s'.users
        ensures FollowerEdge(s', x, y) <==> FollowingEdge(s', x, y)
      {
        assert FollowerEdge(s, x, y) <==> FollowingEdge(s, x, y);
      }
    }
  }

  /** Starting from "not following" (on both sides), follow then unfollow
      gives back exactly the original store. */
  lemma ToggleTwiceFromUnfollowed(s: Store, actor: UserId, target: UserId)
    requires actor != target && actor in s.users && target in s.users
    requires actor !in s.users[target].followers && target !in s.users[actor].following
    ensures Follow(s, actor, target).0 == Followed
    ensures Follow(Follow(s, actor, target).1, actor, target) == (Unfollowed, s)
  {
    var t, a := s.users[target], s.users[actor];
    RemoveAllUndoesAppend(t.followers, actor);
    RemoveAllUndoesAppend(a.following, target);
    var s2 := Follow(Follow(s, actor, target).1, actor, target).1;
    assert s2.users == s.users;
  }

  /** Two stores that agree on everything except the order of edge lists. */
  ghost predicate SameEdges(s1: Store, s2: Store) {
    && s1.posts == s2.posts
    && s1.users.Keys == s2.users.Keys
    && forall u :: u in s1.users ==>
         var u1, u2 := s1.users[u], s2.users[u];
         && u1 == u2.(followers := u1.followers, following := u1.following)
         && multiset(u1.followers) == multiset(u2.followers)
         && multiset(u1.following) == multiset(u2.following)
  }

  /** From any well-formed graph, two successive toggles by the same actor
      on the same target restore every edge list as a multiset. Exact
      restoration fails from the "following" state: unfollow-then-follow
      moves the actor to the end of the target's `followers`. */
  lemma ToggleTwiceRestoresEdges(s: Store, actor: UserId, target: UserId)
    requires actor != target && actor in s.users && target in s.users
    requires GraphOk(s)
    ensures Follow(Follow(s, actor, target).1, actor, target).0 != Follow(s, actor, target).0
    ensures SameEdges(Follow(Follow(s, actor, target).1, actor, target).1, s)
  {
    var t, a := s.users[target], s.users[actor];
    assert FollowerEdge(s, actor, target) <==> FollowingEdge(s, actor, target);
    if actor !in t.followers {
      ToggleTwiceFromUnfollowed(s, actor, target);
    } else {
      NoDupCountsOne(t.followers, actor);
      NoDupCountsOne(a.following, target);
      var s1 := Follow(s, actor, target).1;
      var s2 := Follow(s1, actor, target).1;
      assert multiset(s2.users[target].followers) == multiset(t.followers);
      assert multiset(s2.users[actor].following) == multiset(a.following);
    }
  }

  /** The exactness claim above is sharp: here unfollow-then-follow reorders
      the target's followers. */
  lemma ToggleTwiceCanReorder()
    ensures
      var t := User("t", "t@x", "h", "b", None, [1, 2], []);
      var a := User("a", "a@x", "h", "b", None, [], [0]);
      var o := User("o", "o@x", "h", "b", None, [], [0]);
      var s := Store(map[0 := t, 1 := a, 2 := o], map[]);
      && GraphOk(s)
      && Follow(Follow(s, 1, 0).1, 1, 0).1.users[0].followers == [2, 1]
  {
    var t := User("t", "t@x", "h", "b", None, [1, 2], []);
    var a := User("a", "a@x", "h", "b", None, [], [0]);
    var o := User("o", "o@x", "h", "b", None, [], [0]);
    var s := Store(map[0 := t, 1 := a, 2 := o], map[]);
    assert RemoveAll([1, 2], 1) == [2] by {
      assert [1, 2][1..] == [2];
      assert RemoveAll([2], 1) == [2] by { RemoveAllAbsent([2], 1); }
    }
    assert RemoveAll([0], 0) == [] by { assert [0][1..] == []; }
    forall x, y | x in s.users && y in s.users
      ensures FollowerEdge(s, x, y) <==> FollowingEdge(s, x, y)
    {
    }
  }
}

=== FILE: post_routes.dfy ===
/** The handlers of `Routes/Post.js`. Each is one atomic step from a store
    to an outcome and a new store; the authenticated caller's id (and, for
    comments, username) come from the verified token and are parameters.
    New document ids and the creation time are supplied by the caller. */
module PostRoutes {
  import opened Common
  import opened PostModel
  import opened Database

  /** `POST /createpost`: a post by the caller with the given description
      (possibly absent), no likes, no comments, stamped `now`. */
  function CreatePost(s: Store, actor: UserId, description: Option<string>,
                      newId: PostId, now: nat): (res: (Outcome, Store))
    requires newId !in s.posts
    ensures res.0 == Ok
    ensures res.1.users == s.users
    ensures res.1.posts.Keys == s.posts.Keys + {newId}
    ensures forall id :: id in s.posts ==> res.1.posts[id] == s.posts[id]
    ensures var p := res.1.posts[newId];
      && p.user == actor && p.description == description
      && p.likes == [] && p.comments == [] && p.createdAt == now
  {
    (Ok, s.(posts := s.posts[newId := Post(actor, description, [], [], now)]))
  }

  /** `GET /getpost/:id`: the stored post, or 400 when there is none. A
      query: it yields no new store. */
  function GetPost(s: Store, id: PostId): (res: (Outcome, Option<Post>))
    ensures res.0 == Ok <==> id in s.posts
    ensures res.0 != Ok ==> res == (BadRequest, None)
    ensures res.0 == Ok ==> res.1.Some? && res.1.value == s.posts[id]
  {
    if id !in s.posts then (BadRequest, None) else (Ok, Some(s.posts[id]))
  }

  /** A freshly created post reads back as created. */
  lemma CreateThenGet(s: Store, actor: UserId, description: Option<string>, newId: PostId, now: nat)
    requires newId !in s.posts
    ensures GetPost(CreatePost(s, actor, description, newId, now).1, newId)
              == (Ok, Some(Post(actor, description, [], [], now)))
  {
  }

  /** The two stores differ at most in post `id`'s description. */
  ghost predicate OnlyDescriptionChanged(s: Store, s': Store, id: PostId)
    requires id in s.posts && id in s'.posts
  {
    && s'.users == s.users
    && s'.posts.Keys == s.posts.Keys
    && (forall k :: k in s.posts && k != id ==> s'.posts[k] == s.posts[k])
    && s'.posts[id] == s.posts[id].(description := s'.posts[id].description)
  }

  /** `PUT /updatepost/:id`: 404 for a missing post, 403 for a caller who
      is not its author, 400 when the new description is absent, empty or
      equal to the current one. Otherwise `save()` validates the whole
      document, embedded comments included: a stored comment without a
      username makes it throw, and the route's `catch` answers 500 with
      nothing written. When the save succeeds only the description changes. */
  function UpdatePost(s: Store, actor: UserId, id: PostId, description: Option<string>): (res: (Outcome, Store))
    ensures id !in s.posts ==> res == (NotFound, s)
    ensures id in s.posts && s.posts[id].user != actor ==> res == (Forbidden, s)
    ensures id in s.posts && s.posts[id].user == actor ==>
              (res.0 == Ok <==> Truthy(description) && description != s.posts[id].description
                                && CommentsWellFormed(s.posts[id]))
    ensures id in s.posts && s.posts[id].user == actor ==>
              (res.0 == BadRequest <==> !Truthy(description) || description == s.posts[id].description)
    ensures res.0 == ServerError <==>
              && id in s.posts && s.posts[id].user == actor
              && Truthy(description) && description != s.posts[id].description
              && !CommentsWellFormed(s.posts[id])
    ensures res.0 != Ok ==> res.1 == s
    ensures res.0 == Ok ==>
      && id in s.posts && id in res.1.posts
      && OnlyDescriptionChanged(s, res.1, id)
      && res.1.posts[id].description == description
  {
    if id !in s.posts then (NotFound, s)
    else
      var p := s.posts[id];
      if p.user != actor then (Forbidden, s)
      else if !Truthy(description) || description == p.description then (BadRequest, s)
      else
        var p' := p.(description := description);
        if !CommentsWellFormed(p') then (ServerError, s)
        else (Ok, s.(posts := s.posts[id := p']))
  }

  /** Sending the same successful update again is refused and changes nothing. */
  lemma UpdatePostTwiceRefused(s: Store, actor: UserId, id: PostId, description: Option<string>)
    requires UpdatePost(s, actor, id, description).0 == Ok
    ensures var s1 := UpdatePost(s, actor, id, description).1;
      UpdatePost(s1, actor, id, description) == (BadRequest, s1)
  {
  }

  /** The fields `$set` may carry in `PUT /update/post/:id`; absent ones
      are left alone. */
  datatype PostPatch = PostPatch(
    user: Option<UserId>,
    description: Option<string>,
    likes: Option<seq<UserId>>,
    comments: Option<seq<Comment>>,
    createdAt: Option<nat>)

  function Patch(p: Post, patch: PostPatch): Post {
    Post(
      if patch.user.Some? then patch.user.value else p.user,
      if patch.description.Some? then patch.description else p.description,
      if patch.likes.Some? then patch.likes.value else p.likes,
      if patch.comments.Some? then patch.comments.value else p.comments,
      if patch.createdAt.Some? then patch.createdAt.value else p.createdAt)
  }

  /** `PUT /update/post/:id`: any authenticated caller may overwrite any
      schema field of an existing post; a missing post answers 400. The
      `$set` runs without validators and is stored. The route then calls
      `save()` on the document `findByIdAndUpdate` returned without
      `{ new: true }`, i.e. the post as it was BEFORE the update: when that
      document passes validation the reply is 200 with it, otherwise the
      `catch` answers 400, with the patch already stored either way. */
  function OverwritePost(s: Store, actor: UserId, id: PostId, patch: PostPatch): (res: (Outcome, Option<Post>, Store))
    ensures id !in s.posts ==> res == (BadRequest, None, s)
    ensures id in s.posts ==>
      && (res.0 == Ok <==> CommentsWellFormed(s.posts[id]))
      && (res.0 == Ok ==> res.1 == Some(s.posts[id]))
      && (res.0 != Ok ==> res.0 == BadRequest && res.1 == None)
      && res.2.users == s.users
      && res.2.posts.Keys == s.posts.Keys
      && (forall k :: k in s.posts && k != id ==> res.2.posts[k] == s.posts[k])
      && var p, p' := s.posts[id], res.2.posts[id];
         && (patch.user.Some? ==> p'.user == patch.user.value)
         && (patch.user.None? ==> p'.user == p.user)
         && (patch.description.Some? ==> p'.description == patch.description)
         && (patch.description.None? ==> p'.description == p.description)
         && (patch.likes.Some? ==> p'.likes == patch.likes.value)
         && (patch.likes.None? ==> p'.likes == p.likes)
         && (patch.comments.Some? ==> p'.comments == patch.comments.value)
         && (patch.comments.None? ==> p'.comments == p.comments)
         && (patch.createdAt.Some? ==> p'.createdAt == patch.createdAt.value)
         && (patch.createdAt.None? ==> p'.createdAt == p.createdAt)
  {
    if id !in s.posts then (BadRequest, None, s)
    else
      var before := s.posts[id];
      var s' := s.(posts := s.posts[id := Patch(before, patch)]);
      if CommentsWellFormed(before) then (Ok, Some(before), s')
      else (BadRequest, None, s')
  }

  /** The overwrite does not look at who is asking. */
  lemma OverwriteIgnoresActor(s: Store, a1: UserId, a2: UserId, id: PostId, patch: PostPatch)
    ensures OverwritePost(s, a1, id, patch) == OverwritePost(s, a2, id, patch)
  {
  }

  /** An empty patch leaves the store as it was. */
  lemma OverwriteEmptyPatch(s: Store, actor: UserId, id: PostId)
    ensures OverwritePost(s, actor, id, PostPatch(None, None, None, None, None)).2 == s
  {
  }

  /** `PUT /comment/post`: append one comment carrying the caller's id and
      token username. A missing post makes `post.comments` throw inside the
      handler's `try` (400); so does a save the comment sub-schema rejects. */
  function CommentPost(s: Store, actor: UserId, actorName: string, postId: PostId,
                       text: Option<string>): (res: (Outcome, Store))
    ensures res.0 == Ok || res.0 == BadRequest
    ensures res.0 != Ok ==> res.1 == s
    ensures res.0 == Ok <==>
      postId in s.posts &&
      CommentsWellFormed(s.posts[postId].(comments := s.posts[postId].comments + [Comment(actor, actorName, text)]))
    ensures res.0 == Ok ==>
      && postId in s.posts && postId in res.1.posts
      && res.1.users == s.users
      && res.1.posts.Keys == s.posts.Keys
      && (forall k :: k in s.posts && k != postId ==> res.1.posts[k] == s.posts[k])
      && var p, p' := s.posts[postId], res.1.posts[postId];
         && p' == p.(comments := p'.comments)
         && |p'.comments| == |p.comments| + 1
         && p'.comments[..|p.comments|] == p.comments
         && p'.comments[|p.comments|] == Comment(actor, actorName, text)
  {
    if postId !in s.posts then (BadRequest, s)
    else
      var p := s.posts[postId];
      var p' := p.(comments := p.comments + [Comment(actor, actorName, text)]);
      if !CommentsWellFormed(p') then (BadRequest, s)
      else (Ok, s.(posts := s.posts[postId := p']))
  }

  /** On a post whose comments are valid, commenting succeeds exactly when
      the caller's username is non-empty, and the post stays valid. */
  lemma CommentKeepsWellFormed(s: Store, actor: UserId, actorName: string, postId: PostId, text: Option<string>)
    requires postId in s.posts && CommentsWellFormed(s.posts[postId])
    ensures CommentPost(s, actor, actorName, postId, text).0 == Ok <==> actorName != ""
    ensures var s' := CommentPost(s, actor, actorName, postId, text).1;
      postId in s'.posts && CommentsWellFormed(s'.posts[postId])
  {
  }

  /** `DELETE /deletepost/:id`: 404 for a missing post, 403 for anyone but
      its author; the author removes exactly that post. */
  function DeletePost(s: Store, actor: UserId, id: PostId): (res: (Outcome, Store))
    ensures id !in s.posts ==> res == (NotFound, s)
    ensures id in s.posts && s.posts[id].user != actor ==> res == (Forbidden, s)
    ensures id in s.posts && s.posts[id].user == actor ==>
      && res.0 == Ok
      && res.1.users == s.users
      && res.1.posts.Keys == s.posts.Keys - {id}
      && forall k :: k in res.1.posts ==> res.1.posts[k] == s.posts[k]
  {
    if id !in s.posts then (NotFound, s)
    else if s.posts[id].user != actor then (Forbidden, s)
    else (Ok, s.(posts := s.posts - {id}))
  }

  /** Creating a post and then deleting it as its author restores the store. */
  lemma CreateThenDelete(s: Store, actor: UserId, description: Option<string>, newId: PostId, now: nat)
    requires newId !in s.posts
    ensures DeletePost(CreatePost(s, actor, description, newId, now).1, actor, newId) == (Ok, s)
  {
    var s1 := CreatePost(s, actor, description, newId, now).1;
    assert s1.posts - {newId} == s.posts;
  }

  /** Because the overwrite route checks no ownership, any caller can make
      itself the author of someone else's post and then delete it. */
  lemma OverwriteThenDeleteByStranger(s: Store, stranger: UserId, id: PostId)
    requires id in s.posts && s.posts[id].user != stranger
    ensures DeletePost(s, stranger, id).0 == Forbidden
    ensures var s1 := OverwritePost(s, stranger, id, PostPatch(Some(stranger), None, None, None, None)).2;
      && (CommentsWellFormed(s.posts[id]) <==>
          OverwritePost(s, stranger, id, PostPatch(Some(stranger), None, None, None, None)).0 == Ok)
      && DeletePost(s1, stranger, id).0 == Ok
      && id !in DeletePost(s1, stranger, id).1.posts
  {
  }

  /** The overwrite stores comments without validating them; afterwards the
      author's description update fails its `save()` with 500 and writes
      nothing, and a new comment is refused with 400, because both
      validate the whole comment array. */
  lemma OverwriteInvalidCommentBlocksSaves()
    ensures
      var s := Store(map[], map[7 := Post(1, Some("a"), [], [], 0)]);
      var bad := PostPatch(None, None, None, Some([Comment(2, "", None)]), None);
      var s1 := OverwritePost(s, 2, 7, bad).2;
      && OverwritePost(s, 2, 7, bad).0 == Ok
      && UpdatePost(s1, 1, 7, Some("b")) == (ServerError, s1)
      && CommentPost(s1, 1, "ann", 7, Some("hi")) == (BadRequest, s1)
      && OverwritePost(s1, 2, 7, bad).0 == BadRequest
  {
    var s := Store(map[], map[7 := Post(1, Some("a"), [], [], 0)]);
    var bad := PostPatch(None, None, None, Some([Comment(2, "", None)]), None);
    var s1 := OverwritePost(s, 2, 7, bad).2;
    assert !CommentsWellFormed(s1.posts[7]) by {
      assert s1.posts[7].comments[0].username == "";
    }
  }

  /** `GET /get/allpost`: every stored post exactly once (in an order the
      collection decides), always 200. A query: the store is not touched. */
  method AllPosts(s: Store) returns (out: Outcome, all: seq<StoredPost>)
    ensures out == Ok
    ensures forall x :: x in all ==> x.id in s.posts && s.posts[x.id] == x.post
    ensures forall id :: id in s.posts ==> StoredPost(id, s.posts[id]) in all
    ensures DistinctIds(all)
    ensures |all| == |s.posts|
  {
    all := [];
    var todo := s.posts.Keys;
    while todo != {}
      invariant todo <= s.posts.Keys
      invariant DistinctIds(all)
      invariant forall x :: x in all ==> x.id in s.posts && s.posts[x.id] == x.post && x.id !in todo
      invariant forall id :: id in s.posts && id !in todo ==> StoredPost(id, s.posts[id]) in all
      decreases todo
    {
      var id :| id in todo;
      todo := todo - {id};
      assert forall i :: 0 <= i < |all| ==> all[i] in all;
      all := all + [StoredPost(id, s.posts[id])];
    }
    assert Ids(all) == s.posts.Keys by {
      forall id | id in Ids(all)
        ensures id in s.posts
      {
        var i :| 0 <= i < |all| && all[i].id == id;
        assert all[i] in all;
      }
      forall id | id in s.posts
        ensures id in Ids(all)
      {
        var i :| 0 <= i < |all| && all[i] == StoredPost(id, s.posts[id]);
      }
    }
    DistinctIdsCard(all);
    out := Ok;
  }
}

=== FILE: records.dfy ===
/** The two Mongoose document shapes (`User` and `Post`) and the in-memory
    store that stands in for the two collections. */
module UserModel {
  import opened Common

  /** A `User` document. `username`, `email`, `password` and `bio` are
      required strings; `profilePicture` is optional; `followers` and
      `following` are arrays of user ids. No uniqueness is declared here:
      email and username uniqueness rests on the registration route alone. */
  datatype User = User(
    username: string,
    email: string,
    password: string,
    bio: string,
    profilePicture: Option<string>,
    followers: seq<UserId>,
    following: seq<UserId>)

  /** Mongoose's `required` validator on a string path rejects the empty string. */
  predicate RequiredOk(v: string) {
    v != ""
  }

  /** The four required paths hold non-empty strings. */
  predicate WellFormed(u: User) {
    RequiredOk(u.username) && RequiredOk(u.email) && RequiredOk(u.password) && RequiredOk(u.bio)
  }

  /** What the followers/followings listings send for one account: the
      document with `email`, `password`, `followers` and `following` removed. */
  datatype PublicProfile = PublicProfile(
    id: UserId,
    username: string,
    bio: string,
    profilePicture: Option<string>)

  function Project(id: UserId, u: User): PublicProfile {
    PublicProfile(id, u.username, u.bio, u.profilePicture)
  }
}

module PostModel {
  import opened Common

  /** One embedded comment: author id and username are required, the text is not. */
  datatype Comment = Comment(user: UserId, username: string, comment: Option<string>)

  /** A `Post` document. `user` (the author) is required; `createdAt`
      defaults to the creation time and is the feed's sort key. */
  datatype Post = Post(
    user: UserId,
    description: Option<string>,
    likes: seq<UserId>,
    comments: seq<Comment>,
    createdAt: nat)

  /** Every embedded comment satisfies its sub-schema's `required` paths. */
  predicate CommentsWellFormed(p: Post) {
    forall i :: 0 <= i < |p.comments| ==> p.comments[i].username != ""
  }
}

module Database {
  import opened Common
  import opened UserModel
  import opened PostModel

  /** The `users` and `posts` collections, keyed by document id. */
  datatype Store = Store(users: map<UserId, User>, posts: map<PostId, Post>)

  /** A post as the queries return it: its id together with the document. */
  datatype StoredPost = StoredPost(id: PostId, post: Post)

  /** No post id occurs twice. */
  ghost predicate DistinctIds(ps: seq<StoredPost>) {
    forall i, j :: 0 <= i < j < |ps| ==> ps[i].id != ps[j].id
  }

  ghost function Ids(ps: seq<StoredPost>): set<PostId> {
    set i | 0 <= i < |ps| :: ps[i].id
  }

  /** A distinct-id sequence has as many ids as entries. */
  lemma {:induction false} DistinctIdsCard(ps: seq<StoredPost>)
    requires DistinctIds(ps)
    ensures |Ids(ps)| == |ps|
  {
    if |ps| > 0 {
      var rest := ps[1..];
      assert DistinctIds(rest) by {
        forall i, j | 0 <= i < j < |rest|
          ensures rest[i].id != rest[j].id
        {
          assert rest[i] == ps[i + 1] && rest[j] == ps[j + 1];
        }
      }
      DistinctIdsCard(rest);
      assert Ids(ps) == {ps[0].id} + Ids(rest) by {
        forall id | id in Ids(ps)
          ensures id in {ps[0].id} + Ids(rest)
        {
          var i :| 0 <= i < |ps| && ps[i].id == id;
          if i > 0 {
            assert rest[i - 1].id == id;
          }
        }
        forall id | id in Ids(rest)
          ensures id in Ids(ps)
        {
          var i :| 0 <= i < |rest| && rest[i].id == id;
          assert ps[i + 1].id == id;
        }
      }
      assert ps[0].id !in Ids(rest) by {
        forall i | 0 <= i < |rest|
          ensures rest[i].id != ps[0].id
        {
          assert rest[i] == ps[i + 1];
        }
      }
    }
  }
}


=== FILE: scenarios.dfy ===
/** Properties that span the user and post routes. */
module Scenarios {
  import opened Common
  import opened UserModel
  import opened PostModel
  import opened Database
  import FollowGraph
  import Accounts
  import PostRoutes

  /** Comments keep the username they were written under: a later rename
      of the commenter leaves every post, and so every comment, as it was. */
  lemma CommentSnapshotSurvivesRename(s: Store, actor: UserId, postId: PostId, text: Option<string>,
                                      newName: string, hash: string -> string)
    requires actor in s.users
    requires PostRoutes.CommentPost(s, actor, s.users[actor].username, postId, text).0 == Ok
    ensures
      var s1 := PostRoutes.CommentPost(s, actor, s.users[actor].username, postId, text).1;
      var s2 := Accounts.UpdateProfile(s1, actor, actor, Accounts.ProfileEdit(None, None, None, Some(newName)), hash).1;
      && postId in s2.posts
      && |s2.posts[postId].comments| == |s.posts[postId].comments| + 1
      && s2.posts[postId].comments[|s.posts[postId].comments|]
           == Comment(actor, s.users[actor].username, text)
  {
  }

  /** A follows B, then A toggles again: B's followers and A's followings
      go from empty to one entry and back to empty. */
  lemma FollowUnfollowScenario()
    ensures
      var s := Store(map[0 := User("a", "a@x", "h", "b", None, [], []),
                         1 := User("b", "b@x", "h", "b", None, [], [])], map[]);
      var (r1, s1) := FollowGraph.Follow(s, 0, 1);
      var (r2, s2) := FollowGraph.Follow(s1, 0, 1);
      && r1 == FollowGraph.Followed
      && s1.users[0].following == [1] && s1.users[1].followers == [0]
      && r2 == FollowGraph.Unfollowed
      && s2.users[0].following == [] && s2.users[1].followers == []
  {
    assert [0][1..] == [] && [1][1..] == [];
  }

  /** A creates a post; B, who is not A, may neither edit nor delete it. */
  lemma StrangerCannotEditOrDelete(s: Store, a: UserId, b: UserId, newId: PostId, now: nat, d: Option<string>)
    requires newId !in s.posts && a != b
    ensures
      var s1 := PostRoutes.CreatePost(s, a, Some("hi"), newId, now).1;
      && s1.posts[newId].comments == [] && s1.posts[newId].likes == []
      && PostRoutes.UpdatePost(s1, b, newId, d) == (Forbidden, s1)
      && PostRoutes.DeletePost(s1, b, newId) == (Forbidden, s1)
  {
  }
}
